=== FILE: README.md ===
# Traffic game: the game loop as a verified model

A browser game in which the player drives a car clockwise round a figure-eight
track while traffic cars and trucks circle the second ring. The player holds
accelerate or decelerate. The score counts completed laps. After lap 9 night
falls and the fog closes in. A collision with any traffic vehicle ends the run
and may raise the stored high score. `R` resets the game.

This project models that game loop in `main.js`:

- the module-level state (score, night flag, `ready`, the last frame time, the
  player's cumulative angle, the held inputs, the traffic list, the fog
  distance, the high score, and whether the renderer's animation loop is
  running);
- `reset`, `startGame` and `animation`;
- the player's and the traffic's angular motion;
- spawning;
- hit detection;
- the input handlers.

Modules:

- `Options`: the `Option` datatype.
- `Geometry`: track radii, `Math.PI` (as its exact double value), and the circle
  positions. `cos`, `sin` and the ring-centre offset `arcCenterX` are supplied
  as a `Track` value.
- `Motion`: player speed, the player's angle, laps, and traffic movement.
- `Spawner`: the new-vehicle rule and the vehicles `addVehicle` creates. Each
  `Math.random()` call is an injected `Draw` in [0, 1), taken in the order the
  game makes them.
- `Collision`: hit-zone points, the squared-distance test, and the zone pairs
  `hitDetection` compares. It includes the scan with early exit (`DetectHit`).
- `Session`: the state as a datatype, one transition function per entry point,
  events and runs of events, and the invariants they keep.
- `Game`: class `GameSession`, whose fields are the module-level variables. It
  has one method per function and handler, and each method updates the fields
  step by step. Each method is proved to reach exactly the state the matching
  `Session` function gives, so every `Session` lemma holds of the class.

Behaviours of the code worth noting:

- **Hit-zone direction.** `getHitZonePosition` (main.js:1237) parses as
  `(angle + clockwise) ? -π/2 : +π/2`. The offset is therefore -π/2 except when
  `angle + (clockwise ? 1 : 0)` is exactly 0. The zones do not turn with the
  car: they point along the car's drawn heading only when that heading is -π/2
  modulo 2π, once per turn. `Collision.HitZoneDirection` models this as
  written. `HitZoneDirectionIsFixed`, `HitZoneDirectionDiffersFromHeading` and
  `HitZoneDirectionMatchesHeadingOncePerTurn` state the consequence.
- **First frame.** `!lastTimestamp` also treats a previous frame time of 0 as
  "no previous frame" (`Session.IsFirstFrame`).
- **Reset does not stop the loop.** `reset` sets `ready` but does not stop a
  running animation loop. A reset during play keeps the frames coming with
  `ready` true (`Session.ResetKeepsLoop`).
- **Spawn rule.** The spawn test at main.js:1138 compares as reals
  (`count < (laps+1)/5`), which is `5·count < laps+1`. So while laps never
  decrease, 5·count < laps+6 holds after every frame.
- **Speed factor.** `min + Math.random()·(max - min)` (main.js:1227, 1232)
  never reaches `max`: a car's speed factor lies in [1, 2) and a truck's in
  [0.6, 1.5).

## Model

| member | source | states |
|---|---|---|
| Geometry.PlayerPosition | main.js:1174-1177 | the player's centre lies on the circle of radius 225 about (-arcCenterX, 0), scaled by cos²+sin² of its total angle |
| Geometry.VehiclePosition | main.js:1192-1193 | a vehicle's centre lies on the circle of radius 225 about (+arcCenterX, 0), scaled by cos²+sin² of its angle |
| Motion.PlayerSpeed | main.js:1202-1206 | the speed is positive and one of twice, half or exactly the base speed |
| Motion.PlayerSpeedRanking | main.js:1202-1206 | accelerate doubles the base and wins over decelerate; decelerate alone halves it; neither gives the base |
| Motion.MovePlayer | main.js:1170-1172 | for dt ≥ 0 the angle never increases; for dt > 0 it strictly decreases; for dt = 0 it is unchanged |
| Motion.Laps | main.js:1125 | laps is the whole number of 2π turns in the absolute angle, so laps·2π ≤ \|angle\| < (laps+1)·2π |
| Motion.LapsMonotone | main.js:1125 | a larger absolute angle never gives fewer laps |
| Motion.LapsNeverDecrease | main.js:1170-1172 | from an angle ≤ 0 and for dt ≥ 0, the new angle stays ≤ 0 and laps do not decrease |
| Motion.MoveVehicle | main.js:1186-1190 | a moved vehicle keeps its kind, speed factor and direction |
| Motion.MoveVehicleDirection | main.js:1186-1190 | clockwise vehicles lose and the others gain exactly speed·dt·factor |
| Motion.MoveVehicleRoundTrip | main.js:1186-1190 | moving by dt and then by -dt restores the vehicle |
| Motion.MoveAll | main.js:1184-1190 | the traffic list keeps its length and order, and each entry stays the same vehicle |
| Motion.MoveAllRoundTrip | main.js:1184-1190 | moving the whole list by dt and back by -dt restores it |
| Spawner.PickRandom | main.js:26-28 | the element picked at floor(r·n) is a member of the array |
| Spawner.PickKind | main.js:1209-1211 | the vehicle is a car exactly when the draw is below 0.5 |
| Spawner.VehicleSpeed | main.js:1223-1234 | a car's speed factor is in [1, 2) and a truck's in [0.6, 1.5) |
| Spawner.NewVehicle | main.js:1208-1221 | a new vehicle is clockwise exactly when its draw is ≥ 0.5; it starts at π/2 if clockwise and -π/2 otherwise; it gets the speed range of its kind |
| Spawner.SpawnDue | main.js:1138 | the real comparison count < (laps+1)/5 holds exactly when 5·count < laps+1 |
| Spawner.Spawn | main.js:1137-1138 | at most one vehicle is appended; it is appended exactly when 5·count < laps+1; the old list is a prefix of the new one; the appended vehicle is the one `addVehicle` builds |
| Spawner.SpawnBounded | main.js:1137-1138 | with laps that do not decrease, 5·count < laps+6 is preserved by a spawning step |
| Spawner.FirstVehicleAtLapZero | main.js:1137-1138 | an empty traffic list gets exactly one vehicle on any frame, lap 0 included |
| Collision.SquaredDistance | main.js:30-34 | a squared distance is non-negative |
| Collision.SqrtThreshold | main.js:33 | for d ≥ 0, sqrt(d) < 40 exactly when d < 1600 |
| Collision.HitZoneDirection | main.js:1237 | the direction is ±π/2, and it is +π/2 exactly when angle + (clockwise ? 1 : 0) is 0 |
| Collision.HitZoneDirectionIsFixed | main.js:1237 | away from angles 0 and -1 the direction is -π/2 for either direction of travel |
| Collision.HitZoneDirectionDiffersFromHeading | main.js:1237 | compared as real numbers, not as directions modulo 2π, the zone direction differs from the drawn heading (angle + π/2 counter-clockwise, angle - π/2 clockwise) at every angle except 0 and -π (counter-clockwise) or 0 (clockwise) |
| Collision.HitZoneDirectionMatchesHeadingOncePerTurn | main.js:1237 | as directions, the zones point along the drawn heading exactly when the angle is -π modulo 2π (counter-clockwise, away from 0) or 0 modulo 2π (clockwise, away from -1) |
| Collision.HitZonePosition | main.js:1236-1242 | a zone lies at the centre when the distance is 0; its squared distance from the centre is (cos²+sin²)·distance² |
| Collision.ZoneOffsets | main.js:1268-1319 | a car has two zone offsets and a truck three; the first is positive and the last is its negation |
| Collision.PlayerZones | main.js:1245-1257 | the player's two zones, at +15 and -15, lie symmetric about its centre and at equal distance from it |
| Collision.VehicleZones | main.js:1268-1319 | a car has two zones and a truck three; the first and last lie symmetric about the vehicle's centre, and a truck's middle zone is the centre itself |
| Collision.CheckedPairs | main.js:1291-1338 | player zone 1 is checked against every vehicle zone, and player zone 2 only against vehicle zone 1 |
| Collision.VehicleHit | main.js:1268-1339 | a vehicle hits exactly when the player's first zone is within 40 of any of the vehicle's zones, or the player's second zone is within 40 of the vehicle's first zone |
| Collision.VehicleHitByPairs | main.js:1267-1340 | a vehicle hits the player exactly when one of its checked pairs is closer than 40 |
| Collision.Collides | main.js:1267 | a collision needs at least one traffic vehicle |
| Collision.CollidesAppend | main.js:1267 | a list with one more vehicle collides exactly when the shorter list does or the new vehicle hits the player |
| Collision.DetectHit | main.js:1267-1340 | the scan reports a hit exactly when some vehicle hits; the reported index is the first vehicle that hits |
| Session.Reset | main.js:250-289 | after a reset: score 0, angle 0, day, fog 1000, no traffic, no last frame time, `ready`, and the invariants hold; the high score, the loop and the held inputs are kept |
| Session.Boot | main.js:14-21 | at page load the high score is the stored one (0 if none is stored); no input is held, the loop is off, the game is ready, and the rest is the reset state: score 0, angle 0, day, fog 1000, no traffic, no previous frame time |
| Session.StartGame | main.js:291-305 | when ready it clears `ready` and starts the loop, and nothing else; otherwise it changes nothing |
| Session.MovePlayerCar | main.js:1170-1172 | only the player's angle changes, and for dt ≥ 0 it does not increase |
| Session.AddVehicle | main.js:1208-1221 | exactly one vehicle, `NewVehicle`, is appended to the traffic and nothing else changes |
| Session.MoveOtherVehicles | main.js:1184-1190 | only the traffic changes; it keeps its length and each entry stays the same vehicle |
| Session.HitDetection | main.js:1342-1352 | on a collision the high score becomes max(high score, score) and the loop stops; without one nothing changes |
| Session.UpdateLaps | main.js:1125-1135 | the score becomes the lap count; night is on exactly when it was already on or the score is past 9 |
| Session.FogStep | main.js:1144-1148 | the fog moves 20 toward 0 at night and 20 toward 1000 by day, only while inside that bound, and it stays a multiple of 20 in [0, 1000] |
| Session.Animation | main.js:1115-1168 | a frame records its time and keeps `ready` and the held inputs |
| Session.RenderFrame | main.js:303 | a frame runs `animation` while the loop is on and changes nothing while it is off |
| Session.AccelerateButtonDown | main.js:1056-1063 | when ready, the button clears `ready`, starts the loop and holds accelerate, and nothing else changes; otherwise it only holds accelerate |
| Session.DecelerateButtonDown | main.js:1064-1071 | when ready, the button clears `ready`, starts the loop and holds decelerate, and nothing else changes; otherwise it only holds decelerate |
| Session.KeyDown | main.js:1085-1101 | ArrowUp acts as the accelerate button; ArrowDown only holds decelerate; R resets; other keys do nothing |
| Session.KeyUp | main.js:1102-1113 | ArrowUp releases accelerate, ArrowDown releases decelerate, and other keys do nothing |
| Session.IsFirstFrame | main.js:1116 | definition: `!lastTimestamp` is true when there is no previous frame time or it is 0 |
| Session.Step | main.js:1056-1113 | an input other than R never changes the player's angle, score, night, fog, traffic, high score or frame time |
| Session.Run | main.js:1056-1168 | definition: the events of a session delivered in order |
| Session.RunAppend | main.js:1056-1168 | delivering two event sequences one after the other equals delivering their concatenation |
| Session.ResetIdempotent | main.js:250-289 | two resets in a row give the same state as one |
| Session.StartGameOnce | main.js:291-293 | `startGame` leaves `ready` false, so a second call is a no-op |
| Session.OnlyArrowDownDoesNotStart | main.js:1085-1096 | from a ready, stopped state ArrowDown does not start the game, while ArrowUp and both buttons do |
| Session.FirstFrameOnlyRecordsTime | main.js:1116-1119 | a first frame (no previous frame time, or 0) records its time and changes nothing else |
| Session.AnimationFields | main.js:1121-1148 | after a later frame the player has moved by the frame time, the score is the new lap count, night is on exactly when it was on or the laps are past 9, and the fog has taken one step |
| Session.AnimationPreservesInv | main.js:1115-1148 | a frame keeps the fog in range, the score equal to the laps, and night on past lap 9 |
| Session.AnimationPreservesProgress | main.js:1121-1138 | a frame no earlier than the last one keeps the angle ≤ 0, never lowers the score, and keeps 5·count < score+6 |
| Session.AnimationTrafficList | main.js:1121-1140 | after a later frame the score is the new lap count and the traffic is the spawned list, moved |
| Session.AnimationTraffic | main.js:1137-1140 | a frame never removes or reorders traffic; each old vehicle is moved in place; at most one new vehicle follows, exactly when 5·count < laps+1 |
| Session.AnimationNightLatch | main.js:1127-1129 | night never ends during a frame; it starts only past lap 9; a later frame past lap 9 is at night |
| Session.AnimationHit | main.js:1342-1351 | the loop stops exactly on a collision at the new positions, and then the high score becomes max(high score, score) |
| Session.FogNightfall | main.js:1144-1145 | after n night frames the fog is max(0, near - 20n) |
| Session.FogDaybreak | main.js:1146-1147 | after n day frames the fog is min(1000, near + 20n) |
| Session.StepPreservesInv | main.js:1056-1168 | every event, frame or input, keeps the invariants |
| Session.RunPreservesInv | main.js:1056-1168 | any sequence of events keeps the invariants |
| Session.StepPreservesProgress | main.js:1121-1138 | every event with frame times in order keeps the traffic bound and the angle ≤ 0 |
| Session.RunPreservesProgress | main.js:1121-1138 | in any session with frame times in order, 5·count < score+6 and the angle ≤ 0 always hold |
| Session.StepScoreNeverDecreases | main.js:1121-1135 | from a state keeping the invariants and with frame times in order, no event other than R lowers the score |
| Session.RunScoreNeverDecreases | main.js:1121-1135 | laps never decrease within a session: without R and with frame times in order, the final score is at least the starting one |
| Session.StepHighScoreNeverDecreases | main.js:1346-1350 | no single event lowers the high score |
| Session.RunHighScoreNeverDecreases | main.js:1346-1350 | the high score never goes down over any session |
| Session.NightEndsOnlyByReset | main.js:259 | only the R key turns night back into day |
| Session.StoppedLoopIgnoresFrames | main.js:1351 | once the loop is stopped, frames change nothing |
| Session.LoopStartsOnlyWhenReady | main.js:291-303 | the loop starts only from a ready state, and only by the accelerate button, the decelerate button or ArrowUp |
| Session.ResetKeepsLoop | main.js:250-289 | a reset keeps the loop as it was, so a running game keeps running and becomes ready |
| Game.GameSession.constructor | main.js:14-21 | the new session is in the page-load state for the stored high score |
| Game.GameSession.Reset | main.js:250-289 | the fields become `Session.Reset` of the old state |
| Game.GameSession.StartGame | main.js:291-305 | the fields become `Session.StartGame` of the old state |
| Game.GameSession.MovePlayerCar | main.js:1170-1172 | the fields become `Session.MovePlayerCar` of the old state |
| Game.GameSession.AddVehicle | main.js:1208-1221 | the fields become `Session.AddVehicle` of the old state |
| Game.GameSession.MoveOtherVehicles | main.js:1184-1190 | the loop updates each vehicle's angle in place, and the fields become `Session.MoveOtherVehicles` of the old state |
| Game.GameSession.HitDetection | main.js:1244-1353 | the fields become `Session.HitDetection` of the old state |
| Game.GameSession.Animation | main.js:1115-1119 | the fields become `Session.Animation` of the old state |
| Game.GameSession.AdvanceFrame | main.js:1121-1168 | a frame after the first one leaves the fields at `Session.Animation` of the old state |
| Game.GameSession.SpawnTraffic | main.js:1137-1138 | only the traffic changes, to `Spawner.Spawn` of the old traffic at the current score |
| Game.GameSession.FinishFrame | main.js:1144-1167 | only the fog and the last frame time change: the fog takes one step and the frame time is recorded |
| Game.GameSession.UpdateLaps | main.js:1125-1135 | the fields become `Session.UpdateLaps` of the old state, and the laps returned equal the new score |
| Game.GameSession.StepFog | main.js:1144-1148 | only the fog changes, by `Session.FogStep` |
| Game.GameSession.RenderFrame | main.js:303 | the fields become `Session.RenderFrame` of the old state |
| Game.GameSession.AccelerateButtonDown | main.js:1056-1063 | the fields become `Session.AccelerateButtonDown` of the old state |
| Game.GameSession.AccelerateButtonUp | main.js:1072-1077 | only accelerate changes, to false |
| Game.GameSession.DecelerateButtonDown | main.js:1064-1071 | the fields become `Session.DecelerateButtonDown` of the old state |
| Game.GameSession.DecelerateButtonUp | main.js:1078-1083 | only decelerate changes, to false |
| Game.GameSession.KeyDown | main.js:1085-1101 | the fields become `Session.KeyDown` of the old state |
| Game.GameSession.KeyUp | main.js:1102-1113 | the fields become `Session.KeyUp` of the old state |
| Game.GameSession.Handle | main.js:1056-1113 | delivering one event leaves the fields at `Session.Step` of the old state |
| Game.GameSession.HandleAll | main.js:1056-1168 | delivering a sequence of events leaves the fields at `Session.Run` of the old state, and the invariants hold after it when they held before |

## Left out

- Rendering: all three.js scene construction, meshes, textures, lights, hit-zone helper meshes, the map and `renderer.render`. They produce nothing the game logic reads back except mesh positions. The model recomputes those positions from the angles.
- The track constants `arcAngle1`–`arcAngle4` and the computation of `arcCenterX`. These are floating-point trigonometry: `cos`, `sin` and `arcCenterX` are supplied as a `Track` value, and the mesh rotations are not modelled.
- Floating-point rounding: angles, speeds and distances are exact reals. `Math.PI` is its exact double value, but the base speed is the decimal 0.0017, not the double nearest to it. NaN and infinities are not modelled.
- The ambient-light and headlight intensity ramps (main.js:1150-1164). They are presentation values reached through scene-graph child indices, and nothing else reads them. The `headlightIntensity` variable is read only as the headlights' initial intensity (main.js:807) and never changes.
- Audio, DOM text and CSS, window resizing, and the `localStorage` writes. These are I/O. The stored high score is an `Option<int>` parameter of the constructor: parsing, including a stored string that does not parse, is not modelled.
- The mouse and touch listeners of each button are identical, so each pair is one handler. The "R" and "r" keys are one key.
- Vehicle objects and their meshes: traffic vehicles are values in a sequence, replaced when they move. The game never shares a vehicle object, so no aliasing is lost.
- `Math.random()`: each call is a `Draw` parameter, passed in the order the game makes the calls.
- Session.AnimationPreservesProgress: the traffic bound and the non-decreasing laps need frame times that do not run backwards. The game takes this from the browser, so it is a hypothesis of these lemmas (`InOrder`, `RunInOrder`), not a precondition of `animation`.
- The helper sandboxes under `helpers/` and `vite.config.js`. They hold no game logic.

=== FILE: collision.dfy ===
/**
 * Collision detection: hit-zone points on each car and the pairs of them the
 * game compares.
 *
 * The player and every car carry two hit zones, offset +15 and -15 from the
 * centre along the hit-zone direction; a truck carries three, offset +35, 0
 * and -35. A pair of zones hits when the points lie less than 40 apart. The game takes a
 * square root before comparing with 40; the model compares the squared
 * distance with 1600, which is the same test (`SqrtThreshold`).
 */
module Collision {
  import opened Geometry
  import opened Motion

  /** Hit-zone distance of the player and of a car. */
  const CarZoneOffset: real := 15.0
  /** Hit-zone distance of a truck. */
  const TruckZoneOffset: real := 35.0
  /** Two zones closer than this collide. */
  const HitDistance: real := 40.0

  /** The squared Euclidean distance between two points. */
  function SquaredDistance(p: Point, q: Point): (d: real)
    ensures d >= 0.0
  {
    var horizontalDistance := q.x - p.x;
    var verticalDistance := q.y - p.y;
    horizontalDistance * horizontalDistance + verticalDistance * verticalDistance
  }

  /**
   * For a non-negative squared distance `d` and its non-negative square root,
   * the root is below 40 exactly when `d` is below 1600.
   */
  lemma SqrtThreshold(d: real, root: real)
    requires 0.0 <= root && root * root == d
    ensures root < HitDistance <==> d < HitDistance * HitDistance
  {
    if root < HitDistance {
      assert root * root <= root * HitDistance;
      assert root * HitDistance < HitDistance * HitDistance;
    } else {
      assert root * root >= root * HitDistance;
      assert root * HitDistance >= HitDistance * HitDistance;
    }
  }

  /** Two hit zones that collide: their distance is below 40. */
  predicate WithinHitRange(p: Point, q: Point)
  {
    SquaredDistance(p, q) < HitDistance * HitDistance
  }

  /**
   * The direction `getHitZonePosition` offsets a zone in, as the expression
   * parses: `(angle + clockwise) ? -π/2 : +π/2`. The boolean is added as 1 or 0,
   * and the sum selects +π/2 only when it is exactly 0; the car's own angle
   * does not otherwise enter.
   */
  function HitZoneDirection(angle: real, clockwise: bool): (r: real)
    ensures r == -Pi / 2.0 || r == Pi / 2.0
    ensures r == Pi / 2.0 <==> angle + (if clockwise then 1.0 else 0.0) == 0.0
  {
    var sum := angle + (if clockwise then 1.0 else 0.0);
    if sum != 0.0 then -Pi / 2.0 else Pi / 2.0
  }

  /**
   * Away from the two angles where the sum is 0, every zone is offset straight
   * down the y-axis (-π/2), whatever the car's direction: the zones do not turn
   * with the car, unlike its drawn heading `angle ± π/2`.
   */
  lemma HitZoneDirectionIsFixed(angle: real, clockwise: bool)
    requires angle != 0.0 && angle != -1.0
    ensures HitZoneDirection(angle, clockwise) == HitZoneDirection(angle, !clockwise) == -Pi / 2.0
  {
  }

  /**
   * Compared as real numbers (not as directions modulo 2π), the hit-zone
   * direction differs from the vehicle's drawn heading (its angle -π/2 when
   * clockwise, +π/2 otherwise) at every angle except 0 and -π counter-clockwise
   * and 0 clockwise.
   */
  lemma HitZoneDirectionDiffersFromHeading(angle: real)
    ensures angle != 0.0 && angle != -Pi ==> HitZoneDirection(angle, false) != angle + Pi / 2.0
    ensures angle != 0.0 ==> HitZoneDirection(angle, true) != angle - Pi / 2.0
  {
  }

  /**
   * As directions, the zones point along the drawn heading only when that
   * heading is -π/2 modulo 2π: once per turn, at angle -π (mod 2π) for a
   * counter-clockwise vehicle and 0 (mod 2π) for a clockwise one.
   */
  lemma HitZoneDirectionMatchesHeadingOncePerTurn(angle: real, k: int)
    ensures angle != 0.0 ==>
      (HitZoneDirection(angle, false) == angle + Pi / 2.0 + 2.0 * Pi * (k as real)
       <==> angle == -Pi - 2.0 * Pi * (k as real))
    ensures angle != -1.0 ==>
      (HitZoneDirection(angle, true) == angle - Pi / 2.0 + 2.0 * Pi * (k as real)
       <==> angle == -2.0 * Pi * (k as real))
  {
  }

  /** The point `distance` away from `center` in the hit-zone direction. */
  function HitZonePosition(center: Point, angle: real, clockwise: bool, distance: real, t: Track): (p: Point)
    ensures distance == 0.0 ==> p == center
    ensures SquaredDistance(center, p) ==
      (t.cos(HitZoneDirection(angle, clockwise)) * t.cos(HitZoneDirection(angle, clockwise))
       + t.sin(HitZoneDirection(angle, clockwise)) * t.sin(HitZoneDirection(angle, clockwise))) * (distance * distance)
  {
    var directionAngle := HitZoneDirection(angle, clockwise);
    Point(center.x + t.cos(directionAngle) * distance, center.y + t.sin(directionAngle) * distance)
  }

  /**
   * The player's two hit zones, offset +15 and -15 from its centre along the
   * hit-zone direction (the player counts as clockwise): they lie symmetric
   * about the centre, each at distance 15 from it when cos² + sin² = 1.
   */
  function PlayerZones(angleMoved: real, t: Track): (zs: (Point, Point))
    ensures var center := PlayerPosition(angleMoved, t);
      && zs.0.x + zs.1.x == 2.0 * center.x && zs.0.y + zs.1.y == 2.0 * center.y
      && SquaredDistance(center, zs.0) == SquaredDistance(center, zs.1)
  {
    var center := PlayerPosition(angleMoved, t);
    var angle := PlayerAngleInitial + angleMoved;
    (HitZonePosition(center, angle, true, CarZoneOffset, t),
     HitZonePosition(center, angle, true, -CarZoneOffset, t))
  }

  /** The signed zone distances of a vehicle kind, the positive one first. */
  function ZoneOffsets(kind: VehicleKind): (ds: seq<real>)
    ensures |ds| == (if kind == Car then 2 else 3)
    ensures ds[0] > 0.0 && ds[|ds| - 1] == -ds[0]
  {
    match kind
    case Car => [CarZoneOffset, -CarZoneOffset]
    case Truck => [TruckZoneOffset, 0.0, -TruckZoneOffset]
  }

  /**
   * A traffic vehicle's hit zones, in the order of `ZoneOffsets`: the first and
   * the last lie symmetric about the vehicle's centre, and a truck's middle
   * zone is the centre itself.
   */
  function VehicleZones(v: Vehicle, t: Track): (zs: seq<Point>)
    ensures |zs| == |ZoneOffsets(v.kind)|
    ensures var c := VehiclePosition(v.angle, t);
      zs[0].x + zs[|zs| - 1].x == 2.0 * c.x && zs[0].y + zs[|zs| - 1].y == 2.0 * c.y
    ensures v.kind == Truck ==> zs[1] == VehiclePosition(v.angle, t)
    ensures forall i | 0 <= i < |zs| ::
      zs[i] == HitZonePosition(VehiclePosition(v.angle, t), v.angle, v.clockwise, ZoneOffsets(v.kind)[i], t)
  {
    var center := VehiclePosition(v.angle, t);
    var ds := ZoneOffsets(v.kind);
    seq(|ds|, i requires 0 <= i < |ds| => HitZonePosition(center, v.angle, v.clockwise, ds[i], t))
  }

  /**
   * The per-vehicle test of `hitDetection`: the player's first zone (+15)
   * against every zone of the vehicle, and the player's second zone (-15)
   * against the vehicle's first zone only.
   */
  predicate VehicleHit(player1: Point, player2: Point, v: Vehicle, t: Track): (hit: bool)
    ensures hit <==>
      (exists k | 0 <= k < |VehicleZones(v, t)| :: WithinHitRange(player1, VehicleZones(v, t)[k]))
      || WithinHitRange(player2, VehicleZones(v, t)[0])
  {
    var zs := VehicleZones(v, t);
    match v.kind
    case Car =>
      WithinHitRange(player1, zs[0]) || WithinHitRange(player1, zs[1])
      || WithinHitRange(player2, zs[0])
    case Truck =>
      WithinHitRange(player1, zs[0]) || WithinHitRange(player1, zs[1]) || WithinHitRange(player1, zs[2])
      || WithinHitRange(player2, zs[0])
  }

  /**
   * The zone pairs the game compares, as (player zone, vehicle zone) indices
   * counted from 0 in the order of `ZoneOffsets`.
   */
  function CheckedPairs(kind: VehicleKind): (ps: set<(nat, nat)>)
    ensures forall k: nat :: (0, k) in ps <==> k < |ZoneOffsets(kind)|
    ensures forall k: nat :: (1, k) in ps <==> k == 0
    ensures forall p | p in ps :: p.0 < 2 && p.1 < |ZoneOffsets(kind)|
  {
    match kind
    case Car => {(0, 0), (0, 1), (1, 0)}
    case Truck => {(0, 0), (0, 1), (0, 2), (1, 0)}
  }

  /** Zone `i` of the player, given its two zones. */
  function PlayerZone(player1: Point, player2: Point, i: nat): Point
  {
    if i == 0 then player1 else player2
  }

  /** A checked pair whose zones lie within hit range. */
  predicate PairHits(player1: Point, player2: Point, v: Vehicle, t: Track, p: (nat, nat))
  {
    p in CheckedPairs(v.kind) &&
    WithinHitRange(PlayerZone(player1, player2, p.0), VehicleZones(v, t)[p.1])
  }

  /** A vehicle hits the player exactly when one of the pairs of `CheckedPairs` lies within hit range. */
  lemma VehicleHitByPairs(player1: Point, player2: Point, v: Vehicle, t: Track)
    ensures VehicleHit(player1, player2, v, t) <==> exists p :: PairHits(player1, player2, v, t, p)
  {
    var zs := VehicleZones(v, t);
    if VehicleHit(player1, player2, v, t) {
      if WithinHitRange(player1, zs[0]) {
        assert PairHits(player1, player2, v, t, (0, 0));
      } else if WithinHitRange(player1, zs[1]) {
        assert PairHits(player1, player2, v, t, (0, 1));
      } else if v.kind == Truck && WithinHitRange(player1, zs[2]) {
        assert PairHits(player1, player2, v, t, (0, 2));
      } else {
        assert PairHits(player1, player2, v, t, (1, 0));
      }
    }
  }

  /** `otherVehicles.some(...)`: whether any traffic vehicle hits the player. */
  predicate Collides(angleMoved: real, vs: seq<Vehicle>, t: Track): (c: bool)
    ensures c ==> |vs| > 0
  {
    var zones := PlayerZones(angleMoved, t);
    exists i | 0 <= i < |vs| :: VehicleHit(zones.0, zones.1, vs[i], t)
  }

  /**
   * The traffic is scanned vehicle by vehicle: a list with one more vehicle
   * collides exactly when the shorter list does or the new vehicle hits.
   */
  lemma CollidesAppend(angleMoved: real, vs: seq<Vehicle>, w: Vehicle, t: Track)
    ensures var zones := PlayerZones(angleMoved, t);
      Collides(angleMoved, vs + [w], t) <==> Collides(angleMoved, vs, t) || VehicleHit(zones.0, zones.1, w, t)
  {
    var zones := PlayerZones(angleMoved, t);
    var ws := vs + [w];
    if Collides(angleMoved, ws, t) {
      var i :| 0 <= i < |ws| && VehicleHit(zones.0, zones.1, ws[i], t);
      if i < |vs| {
        assert ws[i] == vs[i];
      }
    }
    if Collides(angleMoved, vs, t) {
      var i :| 0 <= i < |vs| && VehicleHit(zones.0, zones.1, vs[i], t);
      assert ws[i] == vs[i];
    }
    if VehicleHit(zones.0, zones.1, w, t) {
      assert ws[|vs|] == w;
    }
  }

  /**
   * The scan of `hitDetection`: it stops at the first vehicle that hits and
   * reports whether there was one, and which.
   */
  method DetectHit(angleMoved: real, vs: seq<Vehicle>, t: Track) returns (hit: bool, index: nat)
    ensures hit <==> Collides(angleMoved, vs, t)
    ensures hit ==> index < |vs| && VehicleHit(PlayerZones(angleMoved, t).0, PlayerZones(angleMoved, t).1, vs[index], t)
    ensures hit ==> forall j | 0 <= j < index ::
      !VehicleHit(PlayerZones(angleMoved, t).0, PlayerZones(angleMoved, t).1, vs[j], t)
  {
    var zones := PlayerZones(angleMoved, t);
    var playerHitZone1, playerHitZone2 := zones.0, zones.1;
    index := 0;
    while index < |vs|
      invariant index <= |vs|
      invariant forall j | 0 <= j < index :: !VehicleHit(playerHitZone1, playerHitZone2, vs[j], t)
    {
      if VehicleHit(playerHitZone1, playerHitZone2, vs[index], t) {
        return true, index;
      }
      index := index + 1;
    }
    hit := false;
  }
}

=== FILE: game.dfy ===
/**
 * The game loop as the program runs it: one object holding the module-level
 * variables, with one method per function of the game loop and per input
 * handler. Each method updates the fields step by step, as the game does, and
 * is proved to leave exactly the state the matching `Session` function
 * describes, so every property proved there holds of these methods.
 */
module Game {
  import opened Options
  import opened Geometry
  import opened Motion
  import opened Spawner
  import opened Collision
  import Session

  class GameSession {
    /** The floating-point library's cos and sin and the track's centre offset. */
    const track: Track

    var score: int
    var isNight: bool
    var ready: bool
    var lastTimestamp: Option<real>
    var playerAngleMoved: real
    var accelerate: bool
    var decelerate: bool
    var otherVehicles: seq<Vehicle>
    /** `scene.fog.near`. */
    var fogNear: int
    var userHighScore: int
    /** Whether the renderer's animation loop is set to `animation`. */
    var loopActive: bool

    /** The current values of the session's variables. */
    function State(): Session.State
      reads this
    {
      Session.State(score, isNight, ready, lastTimestamp, playerAngleMoved, accelerate, decelerate,
                    otherVehicles, fogNear, userHighScore, loopActive)
    }

    /** Page load: the high score is read from storage (0 when absent), then `reset` runs. */
    constructor (track: Track, storedHighScore: Option<int>)
      ensures this.track == track
      ensures State() == Session.Boot(storedHighScore)
    {
      this.track := track;
      userHighScore := storedHighScore.GetOr(0);
      score, isNight, ready, lastTimestamp, playerAngleMoved := 0, false, false, None, 0.0;
      accelerate, decelerate := false, false;
      otherVehicles := [];
      fogNear := Session.FogDay;
      loopActive := false;
      new;
      Reset();
    }

    method Reset()
      modifies this
      ensures State() == Session.Reset(old(State()))
    {
      playerAngleMoved := 0.0;
      fogNear := Session.FogDay;
      isNight := false;
      score := 0;
      otherVehicles := [];
      lastTimestamp := None;
      MovePlayerCar(0.0);
      ready := true;
    }

    method StartGame()
      modifies this
      ensures State() == Session.StartGame(old(State()))
    {
      if ready {
        ready := false;
        loopActive := true;
      }
    }

    method MovePlayerCar(timeDelta: real)
      modifies this
      ensures State() == Session.MovePlayerCar(old(State()), timeDelta)
    {
      var playerSpeed := PlayerSpeed(accelerate, decelerate);
      playerAngleMoved := playerAngleMoved - playerSpeed * timeDelta;
    }

    method AddVehicle(d: Draws)
      modifies this
      ensures State() == Session.AddVehicle(old(State()), d)
    {
      var kind := PickKind(d.kindDraw);
      var speed := VehicleSpeed(kind, d.speedDraw);
      var clockwise := d.directionDraw >= 0.5;
      var angle := if clockwise then Pi / 2.0 else -Pi / 2.0;
      otherVehicles := otherVehicles + [Vehicle(kind, speed, clockwise, angle)];
    }

    /** Each vehicle's angle in turn, in list order. */
    method MoveOtherVehicles(timeDelta: real)
      modifies this
      ensures State() == Session.MoveOtherVehicles(old(State()), timeDelta)
    {
      var i := 0;
      while i < |otherVehicles|
        invariant 0 <= i <= |otherVehicles| == |old(otherVehicles)|
        invariant forall j | 0 <= j < i :: otherVehicles[j] == MoveVehicle(old(otherVehicles)[j], timeDelta)
        invariant forall j | i <= j < |otherVehicles| :: otherVehicles[j] == old(otherVehicles)[j]
        invariant State() == old(State()).(otherVehicles := otherVehicles)
      {
        var vehicle := otherVehicles[i];
        if vehicle.clockwise {
          vehicle := vehicle.(angle := vehicle.angle - Speed * timeDelta * vehicle.speed);
        } else {
          vehicle := vehicle.(angle := vehicle.angle + Speed * timeDelta * vehicle.speed);
        }
        otherVehicles := otherVehicles[i := vehicle];
        i := i + 1;
      }
      assert otherVehicles == MoveAll(old(otherVehicles), timeDelta);
    }

    method HitDetection()
      modifies this
      ensures State() == Session.HitDetection(old(State()), track)
    {
      var hit, _ := DetectHit(playerAngleMoved, otherVehicles, track);
      if hit {
        if score > userHighScore {
          userHighScore := score;
        }
        loopActive := false;
      }
    }

    method Animation(timestamp: real, d: Draws)
      modifies this
      ensures State() == Session.Animation(old(State()), timestamp, d, track)
    {
      if lastTimestamp.None? || lastTimestamp.value == 0.0 {
        lastTimestamp := Some(timestamp);
        return;
      }
      AdvanceFrame(timestamp, d);
    }

    /** The body of `animation` once there is a previous frame time. */
    method AdvanceFrame(timestamp: real, d: Draws)
      requires !Session.IsFirstFrame(State())
      modifies this
      ensures State() == Session.Animation(old(State()), timestamp, d, track)
    {
      var timeDelta := timestamp - lastTimestamp.value;
      MovePlayerCar(timeDelta);
      var _ := UpdateLaps();
      SpawnTraffic(d);
      MoveOtherVehicles(timeDelta);
      HitDetection();
      FinishFrame(timestamp);
    }

    /** The spawning part of `animation`: one new vehicle while the traffic is below (score + 1) / 5. */
    method SpawnTraffic(d: Draws)
      requires score >= 0
      modifies this
      ensures State() == old(State()).(otherVehicles := Spawn(old(otherVehicles), old(score), d))
    {
      if SpawnDue(|otherVehicles|, score) {
        AddVehicle(d);
      }
    }

    /** The end of `animation`: step the fog and record the frame time. */
    method FinishFrame(timestamp: real)
      modifies this
      ensures State() == old(State()).(fogNear := Session.FogStep(old(fogNear), isNight), lastTimestamp := Some(timestamp))
    {
      StepFog();
      lastTimestamp := Some(timestamp);
    }

    /** The lap part of `animation`: recompute the laps, latch night, update the score. */
    method UpdateLaps() returns (laps: nat)
      modifies this
      ensures State() == Session.UpdateLaps(old(State()))
      ensures laps == score
    {
      laps := Laps(playerAngleMoved);
      if laps > Session.NightAfterLaps {
        isNight := true;
      }
      if laps != score {
        score := laps;
      }
    }

    /** The fog part of `animation`: 20 closer at night while above 0, 20 farther by day while below 1000. */
    method StepFog()
      modifies this
      ensures State() == old(State()).(fogNear := Session.FogStep(old(fogNear), isNight))
    {
      if isNight && fogNear > 0 {
        fogNear := fogNear - Session.FogStepSize;
      } else if !isNight && fogNear < Session.FogDay {
        fogNear := fogNear + Session.FogStepSize;
      }
    }

    /** One tick of the renderer's animation loop: `animation` runs only while the loop is set. */
    method RenderFrame(timestamp: real, d: Draws)
      modifies this
      ensures State() == Session.RenderFrame(old(State()), timestamp, d, track)
    {
      if loopActive {
        Animation(timestamp, d);
      }
    }

    method AccelerateButtonDown()
      modifies this
      ensures State() == Session.AccelerateButtonDown(old(State()))
    {
      StartGame();
      accelerate := true;
    }

    method AccelerateButtonUp()
      modifies this
      ensures State() == old(State()).(accelerate := false)
    {
      accelerate := false;
    }

    method DecelerateButtonDown()
      modifies this
      ensures State() == Session.DecelerateButtonDown(old(State()))
    {
      StartGame();
      decelerate := true;
    }

    method DecelerateButtonUp()
      modifies this
      ensures State() == old(State()).(decelerate := false)
    {
      decelerate := false;
    }

    method KeyDown(key: Session.Key)
      modifies this
      ensures State() == Session.KeyDown(old(State()), key)
    {
      match key {
        case ArrowUp =>
          StartGame();
          accelerate := true;
        case ArrowDown =>
          decelerate := true;
        case LetterR =>
          Reset();
        case OtherKey =>
      }
    }

    method KeyUp(key: Session.Key)
      modifies this
      ensures State() == Session.KeyUp(old(State()), key)
    {
      match key {
        case ArrowUp =>
          accelerate := false;
        case ArrowDown =>
          decelerate := false;
        case _ =>
      }
    }

    /** Deliver one event to its handler. */
    method Handle(e: Session.Event)
      modifies this
      ensures State() == Session.Step(old(State()), e, track)
    {
      match e {
        case Frame(timestamp, d) => RenderFrame(timestamp, d);
        case AccelerateDown => AccelerateButtonDown();
        case AccelerateUp => AccelerateButtonUp();
        case DecelerateDown => DecelerateButtonDown();
        case DecelerateUp => DecelerateButtonUp();
        case KeyPressed(key) => KeyDown(key);
        case KeyReleased(key) => KeyUp(key);
      }
    }

    /**
     * Deliver a whole sequence of events. The state reached is the one
     * `Session.Run` describes, so a session that starts from a reachable state
     * keeps the invariants throughout.
     */
    method HandleAll(es: seq<Session.Event>)
      modifies this
      ensures State() == Session.Run(old(State()), es, track)
      ensures Session.Inv(old(State())) ==> Session.Inv(State())
    {
      var i := 0;
      while i < |es|
        invariant 0 <= i <= |es|
        invariant Session.Run(old(State()), es, track) == Session.Run(State(), es[i..], track)
      {
        assert es[i..][1..] == es[i + 1..];
        Handle(es[i]);
        i := i + 1;
      }
      if Session.Inv(old(State())) {
        Session.RunPreservesInv(old(State()), es, track);
      }
    }
  }
}

=== FILE: geometry.dfy ===
/**
 * The track: its radius constants and where the cars stand on it.
 *
 * The game places every car on one circle of radius `TrackRadius`. The player's
 * circle is centred at `-arcCenterX`, the traffic's at `+arcCenterX`; `arcCenterX`
 * and the trigonometric functions come from the floating-point library and are
 * injected here as a `Track` value, so nothing below depends on what cos and sin
 * actually compute.
 */
module Geometry {

  /** `Math.PI` as the IEEE-754 double it denotes: 884279719003555 / 2^48. */
  const Pi: real := 884279719003555.0 / 281474976710656.0

  const TrackRadius: real := 225.0
  const TrackWidth: real := 45.0
  const InnerTrackRadius: real := TrackRadius - TrackWidth
  const OuterTrackRadius: real := TrackRadius + TrackWidth

  /** The player's angle before it has moved: it starts on the far side of its circle. */
  const PlayerAngleInitial: real := Pi

  datatype Point = Point(x: real, y: real)

  /** The trigonometric functions the game calls and the derived centre offset of the two circles. */
  datatype Track = Track(cos: real -> real, sin: real -> real, arcCenterX: real)

  /**
   * The player's centre after it has moved `angleMoved` from the start line:
   * on the circle of radius `TrackRadius` about (-arcCenterX, 0), scaled by
   * cos² + sin² of the total angle.
   */
  function PlayerPosition(angleMoved: real, t: Track): (p: Point)
    ensures var a := PlayerAngleInitial + angleMoved;
      (p.x + t.arcCenterX) * (p.x + t.arcCenterX) + p.y * p.y
      == (t.cos(a) * t.cos(a) + t.sin(a) * t.sin(a)) * (TrackRadius * TrackRadius)
  {
    var totalPlayerAngle := PlayerAngleInitial + angleMoved;
    Point(t.cos(totalPlayerAngle) * TrackRadius - t.arcCenterX, t.sin(totalPlayerAngle) * TrackRadius)
  }

  /**
   * A traffic vehicle's centre at track angle `angle`: on the circle of radius
   * `TrackRadius` about (+arcCenterX, 0), scaled by cos² + sin² of the angle.
   */
  function VehiclePosition(angle: real, t: Track): (p: Point)
    ensures (p.x - t.arcCenterX) * (p.x - t.arcCenterX) + p.y * p.y
      == (t.cos(angle) * t.cos(angle) + t.sin(angle) * t.sin(angle)) * (TrackRadius * TrackRadius)
  {
    Point(t.cos(angle) * TrackRadius + t.arcCenterX, t.sin(angle) * TrackRadius)
  }
}

=== FILE: motion.dfy ===
/**
 * Motion: the player's speed and cumulative angle, the lap count derived from
 * it, and the angular update of every traffic vehicle.
 *
 * Angles are real numbers; the game computes them in IEEE-754 doubles, whose
 * rounding is not modelled.
 */
module Motion {
  import opened Geometry

  /** The base angular speed, in radians per millisecond. */
  const Speed: real := 0.0017

  datatype VehicleKind = Car | Truck

  /**
   * A traffic vehicle: its kind, its own speed factor, its direction and its
   * current angle on the traffic circle. Only `angle` changes after spawning.
   */
  datatype Vehicle = Vehicle(kind: VehicleKind, speed: real, clockwise: bool, angle: real)

  function Abs(x: real): (r: real)
    ensures r >= 0.0 && (r == x || r == -x)
  {
    if x < 0.0 then -x else x
  }

  /** The player's speed for the current state of the accelerate and decelerate inputs. */
  function PlayerSpeed(accelerate: bool, decelerate: bool): (r: real)
    ensures r > 0.0
    ensures r == Speed * 2.0 || r == Speed * 0.5 || r == Speed
  {
    if accelerate then Speed * 2.0
    else if decelerate then Speed * 0.5
    else Speed
  }

  /**
   * Accelerate doubles the base speed and wins over decelerate; decelerate
   * alone halves it; with neither held the speed is the base.
   */
  lemma PlayerSpeedRanking(decelerate: bool)
    ensures PlayerSpeed(true, decelerate) == 2.0 * PlayerSpeed(false, false)
    ensures PlayerSpeed(false, true) == PlayerSpeed(false, false) / 2.0
    ensures PlayerSpeed(false, false) == Speed
    ensures PlayerSpeed(false, true) < PlayerSpeed(false, false) < PlayerSpeed(true, decelerate)
  {
  }

  /** The player's cumulative angle after a frame of `timeDelta` milliseconds: it only ever moves down. */
  function MovePlayer(angleMoved: real, accelerate: bool, decelerate: bool, timeDelta: real): (r: real)
    ensures timeDelta >= 0.0 ==> r <= angleMoved
    ensures timeDelta > 0.0 ==> r < angleMoved
    ensures timeDelta == 0.0 ==> r == angleMoved
  {
    var playerSpeed := PlayerSpeed(accelerate, decelerate);
    assert timeDelta >= 0.0 ==> playerSpeed * timeDelta >= 0.0;
    assert timeDelta > 0.0 ==> playerSpeed * timeDelta > 0.0;
    angleMoved - playerSpeed * timeDelta
  }

  /** The number of completed laps: whole turns of 2π in the player's cumulative angle. */
  function Laps(angleMoved: real): (r: nat)
    ensures (r as real) * (2.0 * Pi) <= Abs(angleMoved) < (r as real + 1.0) * (2.0 * Pi)
  {
    (Abs(angleMoved) / (Pi * 2.0)).Floor
  }

  /** A larger distance from the start line never gives fewer laps. */
  lemma LapsMonotone(a: real, b: real)
    requires Abs(a) <= Abs(b)
    ensures Laps(a) <= Laps(b)
  {
    var x, y := Abs(a) / (Pi * 2.0), Abs(b) / (Pi * 2.0);
    assert x <= y;
  }

  /**
   * While the player's angle only moves down from the start line, the lap
   * count never decreases.
   */
  lemma LapsNeverDecrease(angleMoved: real, accelerate: bool, decelerate: bool, timeDelta: real)
    requires angleMoved <= 0.0 && timeDelta >= 0.0
    ensures MovePlayer(angleMoved, accelerate, decelerate, timeDelta) <= 0.0
    ensures Laps(angleMoved) <= Laps(MovePlayer(angleMoved, accelerate, decelerate, timeDelta))
  {
    LapsMonotone(angleMoved, MovePlayer(angleMoved, accelerate, decelerate, timeDelta));
  }

  /** The same vehicle, possibly at another angle: everything but `angle` agrees. */
  predicate SameVehicle(a: Vehicle, b: Vehicle)
  {
    a.kind == b.kind && a.speed == b.speed && a.clockwise == b.clockwise
  }

  /** One vehicle's angle after a frame: clockwise vehicles lose, the others gain, speed·timeDelta·factor. */
  function MoveVehicle(v: Vehicle, timeDelta: real): (r: Vehicle)
    ensures SameVehicle(r, v)
  {
    if v.clockwise then v.(angle := v.angle - Speed * timeDelta * v.speed)
    else v.(angle := v.angle + Speed * timeDelta * v.speed)
  }

  /**
   * A vehicle with a non-negative speed factor moves in its own direction
   * for a non-negative frame time, by exactly its distance for that frame.
   */
  lemma MoveVehicleDirection(v: Vehicle, timeDelta: real)
    requires v.speed >= 0.0 && timeDelta >= 0.0
    ensures v.clockwise ==> MoveVehicle(v, timeDelta).angle <= v.angle
    ensures !v.clockwise ==> MoveVehicle(v, timeDelta).angle >= v.angle
    ensures Abs(MoveVehicle(v, timeDelta).angle - v.angle) == Speed * timeDelta * v.speed
  {
    assert Speed * timeDelta >= 0.0;
    assert Speed * timeDelta * v.speed >= 0.0;
  }

  /** Moving a vehicle by `timeDelta` and then by `-timeDelta` puts it back where it was. */
  lemma MoveVehicleRoundTrip(v: Vehicle, timeDelta: real)
    ensures MoveVehicle(MoveVehicle(v, timeDelta), -timeDelta) == v
  {
    assert Speed * (-timeDelta) * v.speed == -(Speed * timeDelta * v.speed);
  }

  /** Every traffic vehicle moved by one frame, in list order. */
  function MoveAll(vs: seq<Vehicle>, timeDelta: real): (r: seq<Vehicle>)
    ensures |r| == |vs|
    ensures forall i | 0 <= i < |vs| :: SameVehicle(r[i], vs[i])
  {
    seq(|vs|, i requires 0 <= i < |vs| => MoveVehicle(vs[i], timeDelta))
  }

  /** Moving the whole traffic by `timeDelta` and back by `-timeDelta` restores the list. */
  lemma {:induction false} MoveAllRoundTrip(vs: seq<Vehicle>, timeDelta: real)
    ensures MoveAll(MoveAll(vs, timeDelta), -timeDelta) == vs
  {
    var r := MoveAll(MoveAll(vs, timeDelta), -timeDelta);
    forall i | 0 <= i < |vs|
      ensures r[i] == vs[i]
    {
      MoveVehicleRoundTrip(vs[i], timeDelta);
    }
  }
}

=== FILE: options.dfy ===
/** A value that may be absent: JavaScript's `undefined` / `null` for a single slot. */
module Options {

  datatype Option<T> = None | Some(value: T) {

    /** The value, or `default` when it is absent. */
    function GetOr(default: T): (r: T)
      ensures Some? ==> r == value
      ensures None? ==> r == default
    {
      match this
      case Some(v) => v
      case None => default
    }
  }
}

=== FILE: session.dfy ===
/**
 * The game session as a state machine: one transition function per entry
 * point of the game loop (reset, startGame, one animation frame and the input
 * handlers), and what they keep true.
 *
 * `State` holds the module-level variables the game loop updates. The
 * renderer's animation loop is the flag `loopActive`: `startGame` switches it
 * on, a collision switches it off, and a frame is delivered only while it is on.
 */
module Session {
  import opened Options
  import opened Geometry
  import opened Motion
  import opened Spawner
  import opened Collision

  /** `fog.near` by day, and the amount it moves per frame toward its target. */
  const FogDay: int := 1000
  const FogStepSize: int := 20
  /** Night falls once the lap count exceeds this. */
  const NightAfterLaps: int := 9

  datatype State = State(
    score: int,
    isNight: bool,
    ready: bool,
    lastTimestamp: Option<real>,
    playerAngleMoved: real,
    accelerate: bool,
    decelerate: bool,
    otherVehicles: seq<Vehicle>,
    fogNear: int,
    highScore: int,
    loopActive: bool)

  function Max(a: int, b: int): (m: int)
    ensures m >= a && m >= b && (m == a || m == b)
  {
    if a > b then a else b
  }

  // ---------------------------------------------------------------------------
  // Invariants

  /** A fog distance the game can reach: a multiple of 20 between 0 and 1000. */
  predicate FogInRange(near: int)
  {
    0 <= near <= FogDay && near % FogStepSize == 0
  }

  /**
   * What holds in every reachable state: the fog is in range, the score is the
   * lap count of the player's angle, and a score past 9 means night.
   */
  predicate Inv(s: State)
  {
    FogInRange(s.fogNear) && s.score == Laps(s.playerAngleMoved) && (s.score > NightAfterLaps ==> s.isNight)
  }

  /**
   * What holds while frame times never run backwards: the player has only
   * moved down from the start line, and there are fewer than (score + 6) / 5
   * traffic vehicles.
   */
  predicate Progress(s: State)
  {
    s.playerAngleMoved <= 0.0 && 5 * |s.otherVehicles| < s.score + 6
  }

  // ---------------------------------------------------------------------------
  // Entry points

  /**
   * `reset`: back to the start line with no traffic, day, full fog distance
   * and no previous frame time, ready to start. It keeps the high score and the
   * held inputs, and it does not stop a running animation loop.
   */
  function Reset(s: State): (r: State)
    ensures Inv(r) && Progress(r) && r.ready
    ensures r.score == 0 && !r.isNight && r.fogNear == FogDay && r.playerAngleMoved == 0.0
    ensures r.otherVehicles == [] && r.lastTimestamp == None
    ensures r.highScore == s.highScore && r.loopActive == s.loopActive
    ensures r.accelerate == s.accelerate && r.decelerate == s.decelerate
  {
    s.(playerAngleMoved := 0.0, fogNear := FogDay, isNight := false, score := 0,
       otherVehicles := [], lastTimestamp := None, ready := true)
  }

  /**
   * The state once the page has loaded: the stored high score (0 when none is
   * stored), no input held, the animation loop off, and `reset` applied, so
   * the player is on the start line with score 0, day, fog 1000, no traffic
   * and no previous frame time.
   */
  function Boot(stored: Option<int>): (s: State)
    ensures Inv(s) && Progress(s) && s.ready && !s.loopActive
    ensures s.score == 0 && !s.isNight && s.fogNear == FogDay && s.playerAngleMoved == 0.0
    ensures s.otherVehicles == [] && s.lastTimestamp == None
    ensures !s.accelerate && !s.decelerate
    ensures s.highScore == (if stored.Some? then stored.value else 0)
  {
    var userHighScore := stored.GetOr(0);
    Reset(State(0, false, false, None, 0.0, false, false, [], FogDay, userHighScore, false))
  }

  /** `startGame`: when ready, clear `ready` and switch the animation loop on; otherwise nothing. */
  function StartGame(s: State): (r: State)
    ensures s.ready ==> !r.ready && r.loopActive && r == s.(ready := false, loopActive := true)
    ensures !s.ready ==> r == s
  {
    if s.ready then s.(ready := false, loopActive := true) else s
  }

  /** `movePlayerCar`: the player's angle after a frame of `timeDelta` milliseconds. */
  function MovePlayerCar(s: State, timeDelta: real): (r: State)
    ensures r == s.(playerAngleMoved := r.playerAngleMoved)
    ensures timeDelta >= 0.0 ==> r.playerAngleMoved <= s.playerAngleMoved
  {
    s.(playerAngleMoved := MovePlayer(s.playerAngleMoved, s.accelerate, s.decelerate, timeDelta))
  }

  /** `addVehicle`: one new vehicle appended to the traffic. */
  function AddVehicle(s: State, d: Draws): (r: State)
    ensures |r.otherVehicles| == |s.otherVehicles| + 1 && r.otherVehicles[|s.otherVehicles|] == NewVehicle(d)
    ensures r.otherVehicles[..|s.otherVehicles|] == s.otherVehicles
    ensures r == s.(otherVehicles := r.otherVehicles)
  {
    s.(otherVehicles := s.otherVehicles + [NewVehicle(d)])
  }

  /** `moveOtherVehicles`: every traffic vehicle moved by one frame. */
  function MoveOtherVehicles(s: State, timeDelta: real): (r: State)
    ensures r == s.(otherVehicles := r.otherVehicles)
    ensures |r.otherVehicles| == |s.otherVehicles|
    ensures forall i | 0 <= i < |s.otherVehicles| :: SameVehicle(r.otherVehicles[i], s.otherVehicles[i])
  {
    s.(otherVehicles := MoveAll(s.otherVehicles, timeDelta))
  }

  /**
   * `hitDetection`: on a collision, the high score becomes the larger of itself
   * and the score, and the animation loop stops; otherwise nothing changes.
   */
  function HitDetection(s: State, t: Track): (r: State)
    ensures r == s.(highScore := r.highScore, loopActive := r.loopActive)
    ensures Collides(s.playerAngleMoved, s.otherVehicles, t) ==>
      r == s.(highScore := Max(s.highScore, s.score), loopActive := false)
    ensures !Collides(s.playerAngleMoved, s.otherVehicles, t) ==> r == s
  {
    if Collides(s.playerAngleMoved, s.otherVehicles, t) then
      var userHighScore := if s.score > s.highScore then s.score else s.highScore;
      s.(highScore := userHighScore, loopActive := false)
    else
      s
  }

  /**
   * The lap part of `animation`: the score becomes the lap count of the
   * player's angle, and night falls once it is past 9.
   */
  function UpdateLaps(s: State): (r: State)
    ensures r.score == Laps(s.playerAngleMoved)
    ensures r.isNight <==> s.isNight || r.score > NightAfterLaps
    ensures r == s.(score := r.score, isNight := r.isNight)
  {
    var laps := Laps(s.playerAngleMoved);
    s.(isNight := s.isNight || laps > NightAfterLaps, score := laps)
  }

  /** One frame's step of the fog distance toward 0 at night and toward 1000 by day. */
  function FogStep(near: int, isNight: bool): (r: int)
    ensures FogInRange(near) ==> FogInRange(r)
    ensures isNight ==> r == (if near > 0 then near - FogStepSize else near)
    ensures !isNight ==> r == (if near < FogDay then near + FogStepSize else near)
  {
    if isNight && near > 0 then near - FogStepSize
    else if !isNight && near < FogDay then near + FogStepSize
    else near
  }

  /** `!lastTimestamp`: no previous frame time, or one that is 0 (falsy). */
  predicate IsFirstFrame(s: State)
  {
    s.lastTimestamp.None? || s.lastTimestamp.value == 0.0
  }

  /**
   * `animation`: one frame at `timestamp`. The first frame after a reset only
   * records the time; a later one moves the player, recomputes laps, score and
   * the night flag, spawns at most one vehicle, moves the traffic, detects a
   * collision and steps the fog.
   */
  function Animation(s: State, timestamp: real, d: Draws, t: Track): (r: State)
    ensures r.lastTimestamp == Some(timestamp)
    ensures r.ready == s.ready && r.accelerate == s.accelerate && r.decelerate == s.decelerate
  {
    if IsFirstFrame(s) then
      s.(lastTimestamp := Some(timestamp))
    else
      var timeDelta := timestamp - s.lastTimestamp.value;
      var s2 := UpdateLaps(MovePlayerCar(s, timeDelta));
      var s3 := s2.(otherVehicles := Spawn(s2.otherVehicles, s2.score, d));
      var s4 := MoveOtherVehicles(s3, timeDelta);
      var s5 := HitDetection(s4, t);
      s5.(fogNear := FogStep(s5.fogNear, s5.isNight), lastTimestamp := Some(timestamp))
  }

  /** The renderer's animation loop: it calls `animation` only while the loop is switched on. */
  function RenderFrame(s: State, timestamp: real, d: Draws, t: Track): (r: State)
    ensures !s.loopActive ==> r == s
    ensures s.loopActive ==> r == Animation(s, timestamp, d, t)
  {
    if s.loopActive then Animation(s, timestamp, d, t) else s
  }

  /** The keys the game listens to; "R" and "r" are one key here. */
  datatype Key = ArrowUp | ArrowDown | LetterR | OtherKey

  /** The accelerate button pressed (mouse or touch): start the game, then hold accelerate. */
  function AccelerateButtonDown(s: State): (r: State)
    ensures r.accelerate && r.decelerate == s.decelerate
    ensures s.ready ==> r == s.(ready := false, loopActive := true, accelerate := true)
    ensures !s.ready ==> r == s.(accelerate := true)
  {
    StartGame(s).(accelerate := true)
  }

  /** The decelerate button pressed (mouse or touch): start the game, then hold decelerate. */
  function DecelerateButtonDown(s: State): (r: State)
    ensures r.decelerate && r.accelerate == s.accelerate
    ensures s.ready ==> r == s.(ready := false, loopActive := true, decelerate := true)
    ensures !s.ready ==> r == s.(decelerate := true)
  {
    StartGame(s).(decelerate := true)
  }

  /** A key pressed: ArrowUp starts and accelerates, ArrowDown only decelerates, R resets. */
  function KeyDown(s: State, key: Key): (r: State)
    ensures key == ArrowUp ==> r == AccelerateButtonDown(s)
    ensures key == ArrowDown ==> r == s.(decelerate := true)
    ensures key == LetterR ==> r == Reset(s)
    ensures key == OtherKey ==> r == s
  {
    match key
    case ArrowUp => StartGame(s).(accelerate := true)
    case ArrowDown => s.(decelerate := true)
    case LetterR => Reset(s)
    case OtherKey => s
  }

  /** A key released: ArrowUp releases accelerate, ArrowDown releases decelerate. */
  function KeyUp(s: State, key: Key): (r: State)
    ensures key == ArrowUp ==> r == s.(accelerate := false)
    ensures key == ArrowDown ==> r == s.(decelerate := false)
    ensures key == LetterR || key == OtherKey ==> r == s
  {
    match key
    case ArrowUp => s.(accelerate := false)
    case ArrowDown => s.(decelerate := false)
    case _ => s
  }

  // ---------------------------------------------------------------------------
  // Sessions as sequences of events

  /** Everything that drives the game: an animation frame or one of the input handlers. */
  datatype Event =
    | Frame(timestamp: real, draws: Draws)
    | AccelerateDown
    | AccelerateUp
    | DecelerateDown
    | DecelerateUp
    | KeyPressed(key: Key)
    | KeyReleased(key: Key)

  /**
   * Deliver one event to its listener. An input other than R never touches
   * the game's progress: the player's angle, score, night, fog, traffic, high
   * score and frame time stay as they were.
   */
  function Step(s: State, e: Event, t: Track): (r: State)
    ensures !e.Frame? && e != KeyPressed(LetterR) ==>
      && r.playerAngleMoved == s.playerAngleMoved && r.score == s.score && r.isNight == s.isNight
      && r.fogNear == s.fogNear && r.otherVehicles == s.otherVehicles && r.highScore == s.highScore
      && r.lastTimestamp == s.lastTimestamp
  {
    match e
    case Frame(timestamp, d) => RenderFrame(s, timestamp, d, t)
    case AccelerateDown => AccelerateButtonDown(s)
    case AccelerateUp => s.(accelerate := false)
    case DecelerateDown => DecelerateButtonDown(s)
    case DecelerateUp => s.(decelerate := false)
    case KeyPressed(key) => KeyDown(s, key)
    case KeyReleased(key) => KeyUp(s, key)
  }

  /** Deliver a sequence of events, in order. */
  function Run(s: State, es: seq<Event>, t: Track): State
    decreases |es|
  {
    if es == [] then s else Run(Step(s, es[0], t), es[1..], t)
  }

  /** A frame time is not earlier than the previous frame's. */
  predicate InOrder(s: State, e: Event)
  {
    e.Frame? && s.lastTimestamp.Some? ==> s.lastTimestamp.value <= e.timestamp
  }

  /** Every frame of the run comes no earlier than the frame before it. */
  predicate RunInOrder(s: State, es: seq<Event>, t: Track)
    decreases |es|
  {
    es == [] || (InOrder(s, es[0]) && RunInOrder(Step(s, es[0], t), es[1..], t))
  }

  // ---------------------------------------------------------------------------
  // Properties of reset and startGame

  /** Two resets in a row leave the same state as one. */
  lemma ResetIdempotent(s: State)
    ensures Reset(Reset(s)) == Reset(s)
  {
  }

  /** A second `startGame` does nothing: the first one cleared `ready`. */
  lemma StartGameOnce(s: State)
    ensures !StartGame(s).ready
    ensures StartGame(StartGame(s)) == StartGame(s)
  {
  }

  /** ArrowDown never starts the game, unlike ArrowUp and the two buttons. */
  lemma OnlyArrowDownDoesNotStart(s: State)
    requires s.ready && !s.loopActive
    ensures KeyDown(s, ArrowDown).ready && !KeyDown(s, ArrowDown).loopActive
    ensures KeyDown(s, ArrowUp).loopActive && !KeyDown(s, ArrowUp).ready
    ensures AccelerateButtonDown(s).loopActive && DecelerateButtonDown(s).loopActive
  {
  }

  // ---------------------------------------------------------------------------
  // Properties of one frame

  /**
   * A first frame (no previous frame time, or one that is 0), such as the
   * first after a reset, records the frame time and changes nothing else.
   */
  lemma FirstFrameOnlyRecordsTime(s: State, timestamp: real, d: Draws, t: Track)
    requires IsFirstFrame(s)
    ensures Animation(s, timestamp, d, t) == s.(lastTimestamp := Some(timestamp))
  {
  }

  /**
   * What a frame that is not the first does to the scalar fields: the player
   * moves by the frame time, the score becomes the new lap count, night latches
   * past lap 9, and the fog takes one step for the new time of day.
   */
  lemma AnimationFields(s: State, timestamp: real, d: Draws, t: Track)
    requires !IsFirstFrame(s)
    ensures var r := Animation(s, timestamp, d, t);
      var moved := MovePlayer(s.playerAngleMoved, s.accelerate, s.decelerate, timestamp - s.lastTimestamp.value);
      && r.playerAngleMoved == moved
      && r.score == Laps(moved)
      && (r.isNight <==> s.isNight || Laps(moved) > NightAfterLaps)
      && r.fogNear == FogStep(s.fogNear, r.isNight)
  {
    var timeDelta := timestamp - s.lastTimestamp.value;
    var s2 := UpdateLaps(MovePlayerCar(s, timeDelta));
    var s3 := s2.(otherVehicles := Spawn(s2.otherVehicles, s2.score, d));
    var s5 := HitDetection(MoveOtherVehicles(s3, timeDelta), t);
    assert s5.(otherVehicles := s2.otherVehicles, highScore := s2.highScore, loopActive := s2.loopActive) == s2;
  }

  /** A frame keeps the invariants, whatever its time. */
  lemma AnimationPreservesInv(s: State, timestamp: real, d: Draws, t: Track)
    requires Inv(s)
    ensures Inv(Animation(s, timestamp, d, t))
  {
    if !IsFirstFrame(s) {
      AnimationFields(s, timestamp, d, t);
    }
  }

  /**
   * A frame no earlier than the previous one moves the player only down,
   * never lowers the score, and keeps the traffic below (score + 6) / 5.
   */
  lemma AnimationPreservesProgress(s: State, timestamp: real, d: Draws, t: Track)
    requires Inv(s) && Progress(s) && InOrder(s, Frame(timestamp, d))
    ensures Progress(Animation(s, timestamp, d, t))
    ensures Animation(s, timestamp, d, t).playerAngleMoved <= s.playerAngleMoved
    ensures Animation(s, timestamp, d, t).score >= s.score
  {
    if !IsFirstFrame(s) {
      var timeDelta := timestamp - s.lastTimestamp.value;
      LapsNeverDecrease(s.playerAngleMoved, s.accelerate, s.decelerate, timeDelta);
      var moved := MovePlayer(s.playerAngleMoved, s.accelerate, s.decelerate, timeDelta);
      SpawnBounded(s.otherVehicles, s.score, Laps(moved), d);
    }
  }

  /** The traffic and score after a frame that is not the first. */
  lemma AnimationTrafficList(s: State, timestamp: real, d: Draws, t: Track)
    requires !IsFirstFrame(s)
    ensures var timeDelta := timestamp - s.lastTimestamp.value;
      var laps := Laps(MovePlayer(s.playerAngleMoved, s.accelerate, s.decelerate, timeDelta));
      var r := Animation(s, timestamp, d, t);
      r.score == laps && r.otherVehicles == MoveAll(Spawn(s.otherVehicles, laps, d), timeDelta)
  {
  }

  /**
   * A frame never removes or reorders traffic: the old vehicles keep their
   * places and identities, each moved by the frame, and at most one new vehicle
   * follows them, added only while fewer than (laps + 1) / 5 were present.
   */
  lemma AnimationTraffic(s: State, timestamp: real, d: Draws, t: Track)
    ensures var r := Animation(s, timestamp, d, t);
      && |s.otherVehicles| <= |r.otherVehicles| <= |s.otherVehicles| + 1
      && (forall i | 0 <= i < |s.otherVehicles| :: SameVehicle(r.otherVehicles[i], s.otherVehicles[i]))
      && (!IsFirstFrame(s) ==> forall i | 0 <= i < |s.otherVehicles| ::
            r.otherVehicles[i] == MoveVehicle(s.otherVehicles[i], timestamp - s.lastTimestamp.value))
      && (IsFirstFrame(s) ==> r.otherVehicles == s.otherVehicles)
      && (|r.otherVehicles| == |s.otherVehicles| + 1 <==>
            !IsFirstFrame(s) && 5 * |s.otherVehicles| < r.score + 1)
      && (|r.otherVehicles| == |s.otherVehicles| + 1 ==>
            SameVehicle(r.otherVehicles[|s.otherVehicles|], NewVehicle(d)))
  {
    if !IsFirstFrame(s) {
      AnimationTrafficList(s, timestamp, d, t);
      var timeDelta := timestamp - s.lastTimestamp.value;
      var laps := Laps(MovePlayer(s.playerAngleMoved, s.accelerate, s.decelerate, timeDelta));
      var spawned := Spawn(s.otherVehicles, laps, d);
      var r := Animation(s, timestamp, d, t);
      forall i | 0 <= i < |s.otherVehicles|
        ensures r.otherVehicles[i] == MoveVehicle(s.otherVehicles[i], timeDelta)
      {
        assert spawned[i] == spawned[..|s.otherVehicles|][i] == s.otherVehicles[i];
      }
    }
  }

  /** The night flag only ever switches on during a frame, and only once the score is past 9. */
  lemma AnimationNightLatch(s: State, timestamp: real, d: Draws, t: Track)
    ensures s.isNight ==> Animation(s, timestamp, d, t).isNight
    ensures Animation(s, timestamp, d, t).isNight ==> s.isNight || Animation(s, timestamp, d, t).score > NightAfterLaps
    ensures !IsFirstFrame(s) && Animation(s, timestamp, d, t).score > NightAfterLaps ==> Animation(s, timestamp, d, t).isNight
  {
  }

  /**
   * A frame that is not the first reports a collision exactly when some
   * vehicle, at its new position, hits the player at the player's new
   * position; then the loop stops and the high score becomes the larger of the
   * old high score and the score. Without a collision both stay as they were.
   */
  lemma AnimationHit(s: State, timestamp: real, d: Draws, t: Track)
    requires !IsFirstFrame(s)
    ensures var r := Animation(s, timestamp, d, t);
      var hit := Collides(r.playerAngleMoved, r.otherVehicles, t);
      && (r.loopActive <==> s.loopActive && !hit)
      && r.highScore == (if hit then Max(s.highScore, r.score) else s.highScore)
  {
  }

  // ---------------------------------------------------------------------------
  // The fog over many frames

  /** The fog distance after `n` frames of the same time of day. */
  function FogAfter(near: int, isNight: bool, n: nat): int
    decreases n
  {
    if n == 0 then near else FogAfter(FogStep(near, isNight), isNight, n - 1)
  }

  /** At night the fog closes in by 20 a frame until it reaches 0. */
  lemma {:induction false} FogNightfall(near: int, n: nat)
    requires FogInRange(near)
    ensures FogAfter(near, true, n) == Max(0, near - FogStepSize * n)
    decreases n
  {
    if n > 0 {
      FogNightfall(FogStep(near, true), n - 1);
    }
  }

  /** By day the fog lifts by 20 a frame until it reaches 1000. */
  lemma {:induction false} FogDaybreak(near: int, n: nat)
    requires FogInRange(near)
    ensures FogAfter(near, false, n) == if near + FogStepSize * n < FogDay then near + FogStepSize * n else FogDay
    decreases n
  {
    if n > 0 {
      FogDaybreak(FogStep(near, false), n - 1);
    }
  }

  // ---------------------------------------------------------------------------
  // Properties of whole sessions

  /** Every event keeps the invariants. */
  lemma StepPreservesInv(s: State, e: Event, t: Track)
    requires Inv(s)
    ensures Inv(Step(s, e, t))
  {
    if e.Frame? && s.loopActive {
      AnimationPreservesInv(s, e.timestamp, e.draws, t);
    }
  }

  /** Delivering two sequences of events one after the other is delivering their concatenation. */
  lemma {:induction false} RunAppend(s: State, es: seq<Event>, fs: seq<Event>, t: Track)
    ensures Run(s, es + fs, t) == Run(Run(s, es, t), fs, t)
    decreases |es|
  {
    if es != [] {
      assert (es + fs)[0] == es[0];
      assert (es + fs)[1..] == es[1..] + fs;
      RunAppend(Step(s, es[0], t), es[1..], fs, t);
    } else {
      assert es + fs == fs;
    }
  }

  /** Any session from a state that satisfies the invariants keeps them. */
  lemma {:induction false} RunPreservesInv(s: State, es: seq<Event>, t: Track)
    requires Inv(s)
    ensures Inv(Run(s, es, t))
    decreases |es|
  {
    if es != [] {
      StepPreservesInv(s, es[0], t);
      RunPreservesInv(Step(s, es[0], t), es[1..], t);
    }
  }

  /** Every event with frame times in order keeps `Progress`. */
  lemma StepPreservesProgress(s: State, e: Event, t: Track)
    requires Inv(s) && Progress(s) && InOrder(s, e)
    ensures Progress(Step(s, e, t))
  {
    if e.Frame? && s.loopActive {
      AnimationPreservesProgress(s, e.timestamp, e.draws, t);
    }
  }

  /**
   * In any session whose frame times never run backwards, the traffic stays
   * below (score + 6) / 5 and the player's angle never rises above 0.
   */
  lemma {:induction false} RunPreservesProgress(s: State, es: seq<Event>, t: Track)
    requires Inv(s) && Progress(s) && RunInOrder(s, es, t)
    ensures Progress(Run(s, es, t))
    decreases |es|
  {
    if es != [] {
      StepPreservesInv(s, es[0], t);
      StepPreservesProgress(s, es[0], t);
      RunPreservesProgress(Step(s, es[0], t), es[1..], t);
    }
  }

  /** No event other than a reset lowers the score, while frame times keep in order. */
  lemma StepScoreNeverDecreases(s: State, e: Event, t: Track)
    requires Inv(s) && Progress(s) && InOrder(s, e) && e != KeyPressed(LetterR)
    ensures Step(s, e, t).score >= s.score
  {
    if e.Frame? && s.loopActive {
      AnimationPreservesProgress(s, e.timestamp, e.draws, t);
    }
  }

  /**
   * Laps never decrease within a session: without a reset and with frame times
   * in order, the score at the end is at least the score at the start.
   */
  lemma {:induction false} RunScoreNeverDecreases(s: State, es: seq<Event>, t: Track)
    requires Inv(s) && Progress(s) && RunInOrder(s, es, t)
    requires forall i | 0 <= i < |es| :: es[i] != KeyPressed(LetterR)
    ensures Run(s, es, t).score >= s.score
    decreases |es|
  {
    if es != [] {
      StepPreservesInv(s, es[0], t);
      StepPreservesProgress(s, es[0], t);
      StepScoreNeverDecreases(s, es[0], t);
      assert forall i | 0 <= i < |es[1..]| :: es[1..][i] != KeyPressed(LetterR) by {
        forall i | 0 <= i < |es[1..]| ensures es[1..][i] != KeyPressed(LetterR) {
          assert es[1..][i] == es[i + 1];
        }
      }
      RunScoreNeverDecreases(Step(s, es[0], t), es[1..], t);
    }
  }

  /** No event lowers the high score. */
  lemma StepHighScoreNeverDecreases(s: State, e: Event, t: Track)
    ensures Step(s, e, t).highScore >= s.highScore
  {
    if e.Frame? && s.loopActive && !IsFirstFrame(s) {
      AnimationHit(s, e.timestamp, e.draws, t);
    }
  }

  /** The high score never goes down. */
  lemma {:induction false} RunHighScoreNeverDecreases(s: State, es: seq<Event>, t: Track)
    ensures Run(s, es, t).highScore >= s.highScore
    decreases |es|
  {
    if es != [] {
      StepHighScoreNeverDecreases(s, es[0], t);
      RunHighScoreNeverDecreases(Step(s, es[0], t), es[1..], t);
    }
  }

  /** Only a reset turns night back into day. */
  lemma NightEndsOnlyByReset(s: State, e: Event, t: Track)
    requires s.isNight && !Step(s, e, t).isNight
    ensures e == KeyPressed(LetterR)
  {
    if e.Frame? && s.loopActive {
      AnimationNightLatch(s, e.timestamp, e.draws, t);
    }
  }

  /** While the loop is off, frames change nothing. */
  lemma StoppedLoopIgnoresFrames(s: State, timestamp: real, d: Draws, t: Track)
    requires !s.loopActive
    ensures Step(s, Frame(timestamp, d), t) == s
  {
  }

  /**
   * The loop is switched on only by `startGame` from a ready state: the
   * accelerate or decelerate button, or ArrowUp.
   */
  lemma LoopStartsOnlyWhenReady(s: State, e: Event, t: Track)
    requires !s.loopActive && Step(s, e, t).loopActive
    ensures s.ready && !Step(s, e, t).ready
    ensures e == AccelerateDown || e == DecelerateDown || e == KeyPressed(ArrowUp)
  {
  }

  /** A reset does not stop the loop: a running game keeps receiving frames. */
  lemma ResetKeepsLoop(s: State)
    ensures Reset(s).loopActive == s.loopActive
    ensures s.loopActive ==> KeyDown(s, LetterR).loopActive && KeyDown(s, LetterR).ready
  {
  }
}

=== FILE: spawner.dfy ===
/**
 * Traffic spawning: when a new vehicle joins and what it looks like.
 *
 * Each `Math.random()` call the game makes while spawning is an injected draw
 * in [0, 1), taken in the order the game makes them: the vehicle type, then its
 * speed factor, then its direction.
 */
module Spawner {
  import opened Geometry
  import opened Motion

  /** A value `Math.random()` can return. */
  type Draw = r: real | 0.0 <= r < 1.0 witness 0.0

  datatype Draws = Draws(kindDraw: Draw, speedDraw: Draw, directionDraw: Draw)

  /** The element of `xs` at index floor(r · |xs|). */
  function PickRandom<T>(xs: seq<T>, r: Draw): (x: T)
    requires |xs| > 0
    ensures x in xs
  {
    var n := |xs| as real;
    assert r * n < n;
    xs[(r * n).Floor]
  }

  const VehicleTypes: seq<VehicleKind> := [Car, Truck]

  /** The type of a new vehicle: a car on the lower half of the draw's range, a truck on the upper half. */
  function PickKind(r: Draw): (k: VehicleKind)
    ensures k == Car <==> r < 0.5
  {
    PickRandom(VehicleTypes, r)
  }

  /** A new vehicle's speed factor: uniform over [1, 2) for a car and [0.6, 1.5) for a truck. */
  function VehicleSpeed(kind: VehicleKind, r: Draw): (s: real)
    ensures kind == Car ==> 1.0 <= s < 2.0
    ensures kind == Truck ==> 0.6 <= s < 1.5
  {
    match kind
    case Car =>
      var minimumSpeed, maximumSpeed := 1.0, 2.0;
      minimumSpeed + r * (maximumSpeed - minimumSpeed)
    case Truck =>
      var minimumSpeed, maximumSpeed := 0.6, 1.5;
      minimumSpeed + r * (maximumSpeed - minimumSpeed)
  }

  /**
   * The vehicle `addVehicle` creates: its type, speed factor and direction come
   * from the draws, and it starts a quarter turn from the traffic circle's
   * x-axis, on the side it drives away from.
   */
  function NewVehicle(d: Draws): (v: Vehicle)
    ensures v.kind == Car <==> d.kindDraw < 0.5
    ensures v.clockwise <==> d.directionDraw >= 0.5
    ensures v.angle == (if v.clockwise then Pi / 2.0 else -Pi / 2.0)
    ensures v.kind == Car ==> 1.0 <= v.speed < 2.0
    ensures v.kind == Truck ==> 0.6 <= v.speed < 1.5
  {
    var kind := PickKind(d.kindDraw);
    var speed := VehicleSpeed(kind, d.speedDraw);
    var clockwise := d.directionDraw >= 0.5;
    var angle := if clockwise then Pi / 2.0 else -Pi / 2.0;
    Vehicle(kind, speed, clockwise, angle)
  }

  /** Whether a frame at `laps` adds a vehicle: the count is below (laps + 1) / 5, compared as reals. */
  function SpawnDue(count: nat, laps: nat): (due: bool)
    ensures due <==> 5 * count < laps + 1
  {
    (count as real) < ((laps + 1) as real) / 5.0
  }

  /** The traffic after a frame's spawning step: at most one vehicle, appended only when due. */
  function Spawn(vs: seq<Vehicle>, laps: nat, d: Draws): (r: seq<Vehicle>)
    ensures |vs| <= |r| <= |vs| + 1
    ensures r[..|vs|] == vs
    ensures |r| == |vs| + 1 <==> 5 * |vs| < laps + 1
    ensures |r| == |vs| + 1 ==> r[|vs|] == NewVehicle(d)
  {
    if SpawnDue(|vs|, laps) then vs + [NewVehicle(d)] else vs
  }

  /**
   * With laps that never go down, a count below (laps + 6) / 5 stays below it:
   * a frame adds one vehicle only while the count is below (laps + 1) / 5.
   */
  lemma SpawnBounded(vs: seq<Vehicle>, laps: nat, laps': nat, d: Draws)
    requires 5 * |vs| < laps + 6 && laps <= laps'
    ensures 5 * |Spawn(vs, laps', d)| < laps' + 6
  {
  }

  /** An empty traffic list always gets its first vehicle, whatever the lap, lap 0 included. */
  lemma FirstVehicleAtLapZero(laps: nat, d: Draws)
    ensures Spawn([], laps, d) == [NewVehicle(d)]
  {
  }
}
